=== FILE: README.md ===
# MPEG-TS live stream: byte delivery

This project models the byte-delivery core of the MPEG-TS live stream of the
web interface (`src/webu_mpegts.cpp`). It is written in Dafny and its
properties are proved by the Dafny verifier.

A client connection owns a stream session (`ctx_webui`). The session holds:
- an output accumulator `resp_image`, with capacity `resp_size` and fill level `resp_used`;
- a delivery cursor `stream_pos`;
- the native handles of the frame descriptor, the encoder and the muxer.

The muxer pushes encoded bytes into the accumulator through a sink callback.
The HTTP layer pulls them out in chunks of at most `max` bytes. Whenever the
cursor is back at 0, a pull first runs one frame cycle:
1. clear the accumulator and choose the frame rate;
2. copy the frame of the stream the connection selects;
3. encode it and write at most one packet through the sink.

The model is laid out as follows:
- `types.dfy` (`MpegTsTypes`) holds the value types.
- `layout.dfy` (`FrameLayout`) holds the expression-level decisions as pure functions: the encoded dimensions, the YUV420P frame size and plane layout, the frame rate, the connection-to-stream selection and the presentation-time interval.
- `delivery.dfy` (`Delivery`) specifies the accumulator as values:
  - the growth rule and byte layout after an append;
  - the slice one pull copies out;
  - successive pulls.
- `responder.dfy` (`Responder`) gives the pull responder as a function `Respond` of the accumulated bytes, the cursor and the outcome of a frame cycle. It also holds the chunking lemmas.
- `teardown.dfy` (`Teardown`) gives the release calls of teardown as a function of the handles held.
- `session.dfy` (`MpegTs`) is the imperative model:
  - `Session` is a class with an array accumulator, and its methods update it in place;
  - `Camera` is the camera whose stream images a session copies;
  - each method is proved against the functions above.

The foreign calls are inputs to the model:
- FFmpeg calls (encoder open, parameter copy, header write, frame send, packet receive and write) are given as `OpenSteps`, `Encode` and `Packet` values. The header and packet writes are the byte chunks the muxer pushes through the sink.
- The clock and the finish check are parameters.
- The mosaic of an aggregate session is a parameter.
- The frames handed to the encoder and the handles released are recorded in the ghost logs `Submitted` and `Released`.

Facts of the code that the model keeps:
- Session open empties the accumulator after the header write (src/webu_mpegts.cpp:387-388). A frame cycle clears it again before encoding (src/webu_mpegts.cpp:168-169). So the bytes the header write pushed through the sink during open are never delivered. Header bytes still held in the AVIO context's own 4096-byte buffer when open returns reach the sink only with the first frame's write, and those are delivered (src/webu_mpegts.cpp:370-374).
- Teardown releases in one fixed order, whatever order the handles were created in (src/webu_mpegts.cpp:36-60).
- A frame cycle receives at most one packet; there is no loop that drains the encoder (src/webu_mpegts.cpp:118-134).
- A failed frame send, packet receive or packet write makes the pull return 0 bytes, not end the stream (src/webu_mpegts.cpp:257-259).
- The 1 fps rate is gated by the camera's `stream_motion` option, not by the connection type (src/webu_mpegts.cpp:172-173).

## Model

| member | source | states |
|---|---|---|
| FrameLayout.StreamDims | src/webu_mpegts.cpp:308-317 | A sub-stream connection on a camera whose width and height are both multiples of 16 gets exactly half of each dimension, and the halves are multiples of 8. Every other case gets the camera's full dimensions. |
| FrameLayout.FrameSize | src/webu_mpegts.cpp:192 | The YUV420P frame size `w*h*3/2` is 1.5 bytes per pixel rounded down, and exact when either dimension is even. |
| FrameLayout.Planes | src/webu_mpegts.cpp:71-73 | Plane 1 starts after the luma plane, at `w*h`, and plane 2 starts a quarter of the luma plane later, rounded down, for every size. The luma rows are `w` bytes and both chroma rows are `w/2` bytes. |
| FrameLayout.PlanesTileFrame | src/webu_mpegts.cpp:85-88 | With even dimensions, the luma plane is `h` rows of `w` bytes. Each chroma plane is then `h/2` rows of `w/2` bytes, and the last one ends exactly at the frame size. |
| FrameLayout.HalfFrameIsQuarter | src/webu_mpegts.cpp:192 | A half-resolution frame holds exactly a quarter of the bytes of a full frame. |
| FrameLayout.StreamRate | src/webu_mpegts.cpp:172-177 | The rate is 1 fps when the camera detects no motion and its `stream_motion` option is on. In every other case it is the configured maximum rate. |
| FrameLayout.StreamFor | src/webu_mpegts.cpp:179-191 | The five transport-stream connection types each select their own stream. Any other type selects none. |
| FrameLayout.StreamForRoundTrip | src/webu_mpegts.cpp:179-191 | The selection is one-to-one: a stream is selected by exactly the connection type that reads it. |
| FrameLayout.PtsInterval | src/webu_mpegts.cpp:91-92 | The integer microsecond elapsed time is within one microsecond of the exact elapsed time. |
| FrameLayout.PtsMonotone | src/webu_mpegts.cpp:91-92 | The elapsed-time value never decreases while the clock does not go back. |
| Delivery.GrownCapacity | src/webu_mpegts.cpp:227-228 | The capacity grows exactly when the incoming bytes do not fit, and then to exactly the size needed. It never shrinks and always holds the bytes. |
| Delivery.Splice | src/webu_mpegts.cpp:238 | After the append, the bytes before the fill level are kept, the chunk follows them, and any later bytes of the buffer are kept. |
| Delivery.Deliver | src/webu_mpegts.cpp:268-279 | A pull copies `min(max, used - pos)` bytes, namely the next unsent slice. The cursor advances by that much and is reset to 0 exactly when it reaches the end. A zero-byte pull leaves the cursor in place. |
| Delivery.PullsAreContiguous | src/webu_mpegts.cpp:268-279 | Successive pulls of positive sizes deliver the unsent bytes in order, with no gap and no repetition, as many as the sizes add up to. |
| Responder.Respond | src/webu_mpegts.cpp:244-283 | A pull returns -1 exactly when the stream is finishing, and then nothing changes. Otherwise it returns the number of bytes copied, at most `max`. At cursor 0 the accumulator is refilled by one frame cycle. The returned bytes are a prefix of the refill and are nonzero only after a successful cycle. Mid-frame the returned bytes are the next slice. Whenever there are bytes to deliver, a pull returns `min(max, used - pos)` bytes. The cursor advances by that much and wraps to 0 exactly at the end. A failed cycle or empty accumulator returns nothing and leaves the cursor at 0. |
| Responder.TrainDelivering | src/webu_mpegts.cpp:254-279 | While a frame is being delivered, successive pulls return exactly the contiguous slices, and nothing is refilled before the cursor wraps. |
| Responder.WholeFrameAnyChunking | src/webu_mpegts.cpp:254-279 | From cursor 0, pulls of any positive sizes that together cover the encoded bytes deliver exactly those bytes, whatever the split, and leave the cursor at 0. |
| Responder.ZeroPullDropsFrame | src/webu_mpegts.cpp:254-279 | A zero-byte pull right after a refill, whether the cycle succeeded or failed, leaves the cursor at 0. The next pull therefore refills again, replacing the first cycle's bytes. |
| Teardown.ReleasePlanOrdered | src/webu_mpegts.cpp:36-60 | Teardown releases in the order picture, codec, AVIO buffer, AVIO context, format context, and never releases a handle twice. |
| Teardown.ReleasePlanExact | src/webu_mpegts.cpp:36-60 | Teardown releases exactly the handles held, with the AVIO buffer and context reached only through a held format context. With nothing held it releases nothing. |
| MpegTs.CopyFrame | src/webu_mpegts.cpp:195-200 | The copied frame has the frame size. It is the stream image's first bytes, or all zeros when the stream has no image yet. |
| MpegTs.Session.AvioBuf | src/webu_mpegts.cpp:223-242 | The sink consumes every byte. The capacity follows the growth rule, the fill level rises by the chunk length, and the accumulated bytes become the old ones followed by the chunk. |
| MpegTs.Session.MuxerWrite | src/webu_mpegts.cpp:134 | One muxer write appends all the chunks it flushes through the sink, in order. The capacity becomes the larger of the old capacity and the new fill level, and nothing more. |
| MpegTs.Session.ResetPos | src/webu_mpegts.cpp:148-152 | The cursor and the fill level are both 0 afterwards. |
| MpegTs.Session.PicSend | src/webu_mpegts.cpp:62-107 | The frame is handed to the encoder. The frame descriptor then has the codec's geometry, the plane layout and the elapsed-time presentation time. A rejected frame frees the descriptor and reports -1. |
| MpegTs.Session.PicGet | src/webu_mpegts.cpp:109-146 | At most one packet is received. Would-block and errors report -1 and append nothing. A written packet appends its sink chunks and reports the write's outcome. The capacity grows only to the new fill level when that exceeds it. |
| MpegTs.Session.GetImg | src/webu_mpegts.cpp:154-221 | A finishing cycle only resets the accumulator. Otherwise the accumulator is cleared and left holding exactly the bytes the cycle's writes produced. The frame rate is chosen, exactly the selected frame is submitted, and the copied stream is marked consumed. The return value is 0 exactly when the cycle succeeds. The frame descriptor carries the elapsed-time presentation time after an accepted send, and is freed after a rejected one. The capacity becomes the larger of the old capacity and the cycle's byte count. The other session fields are unchanged. |
| MpegTs.Session.AcquireFrame | src/webu_mpegts.cpp:171-208 | A camera session sets the rate and selects the stream. It returns no frame for an unknown connection type. Otherwise it returns the copied or black frame, marking a copied image consumed. An aggregate session returns the mosaic. |
| MpegTs.Session.Response | src/webu_mpegts.cpp:244-283 | The return value, the accumulator, the cursor and the bytes written to the client buffer are exactly those `Respond` gives for the state before the call. A refill also has the frame cycle's effects on the rate, the submitted frames, the consumed flag and the frame descriptor. A finishing or mid-frame pull leaves all of these unchanged. The capacity grows only on a refill, and then only to the cycle's byte count. The accumulator stays the session's own array, either the old one or a freshly allocated one. |
| MpegTs.Session.CopyOut | src/webu_mpegts.cpp:268-281 | The client buffer starts with the slice `Deliver` gives, the rest of it is untouched, and the cursor is where `Deliver` puts it. |
| MpegTs.Session.FreeContext | src/webu_mpegts.cpp:36-60 | All handles are null afterwards, and the releases are exactly the teardown plan for the handles held. A second call releases nothing. |
| MpegTs.Session.FreeFormatContext | src/webu_mpegts.cpp:46-57 | The AVIO buffer, the AVIO context and the format context are released in that order, each only when held. |
| MpegTs.Session.Open | src/webu_mpegts.cpp:285-394 | Open succeeds exactly when the encoder opens, the parameters copy and the header writes. The encoder gets the chosen dimensions, and the start time and startup rate are set. On success the accumulator and cursor are 0. On failure everything created is torn down and -1 is returned. The cursor is then unchanged, and the accumulator keeps the header's sink bytes if the header was written. The capacity grows only to the fill level the header write needs. The AVIO buffer size is set only once the encoder is open. No frame is submitted. The accumulator stays the session's own array, either the old one or a freshly allocated one. |
| MpegTs.Session.OpenEncoder | src/webu_mpegts.cpp:324-392 | Covers the encoder, sink binding and header steps of open: the success and failure outcomes, and the exact releases on failure. The accumulator, cursor, capacity and AVIO buffer size are exact on both paths. The accumulator array is the old one or a fresh one. |

## Left out

- FFmpeg calls (`avcodec_open2`, `avcodec_parameters_from_context`, `avformat_write_header`, `avcodec_send_frame`, `avcodec_receive_packet`, `av_interleaved_write_frame`) are foreign code. Their outcomes are inputs, and the bytes they write are the chunks fed to the sink.
- The codec parameter block and the encoder options (`gop_size`, bit rate, time base, preset and so on) configure foreign code and are not modelled.
- PicSend: stores the presentation time in microseconds. The rescaling to the codec time base by `av_rescale_q` is foreign code.
- Response: does not model the pacing wait `webu_stream_delay` before a refill, which is time and sleeping.
- `clock_gettime` is a parameter (`now` of a cycle or of open).
- The stream mutex around the frame copy exists for concurrency. The copy is modelled as one step.
- Aggregate sessions: `webu_stream_all_getimg`, `webu_stream_all_sizes` and `webu_stream_all_buffers` are not part of this model. The mosaic image and its dimensions are parameters.
- The finish check `webu_stream_check_finish` is a parameter.
- Open: `webu_stream_checkbuffers` and `webu_stream_all_buffers`, called inside open after the parameter copy (src/webu_mpegts.cpp:364-368), are not part of this model. Open assumes they leave `resp_size` and `resp_used` unchanged. The `Session` constructor's `capacity` stands for the capacity they leave.
- `webu_mpegts_main` builds the HTTP response and headers in the web server library and is not modelled.
- Allocation and `realloc` failure are never checked by the code, so allocation always succeeds in the model.
- AvioBuf: integers are unbounded. The `int` and `size_t` arithmetic on the buffer sizes is not modelled as overflowing.
- FrameSize: the `int` product `w*h*3` is not modelled as overflowing.
- AcquireFrame: requires that a stream image holds at least one frame of the encoded size (`SourceFits`). The code copies that many bytes without checking.
- PicGet: the packet allocated per cycle is leaked on the error and write-failure paths. Memory ownership is not modelled.
- Open: forgets the handles it finds without releasing them. The model shows this only as the handles being overwritten.
- `src/draw.hpp` holds only declarations and has nothing to model.
- PicGet: the packet's timestamp is copied from the frame descriptor before the write (src/webu_mpegts.cpp:132). The packet is a foreign value here, so this copy is not modelled.
- Logging is not modelled.

=== FILE: delivery.dfy ===
/** The output accumulator as values: the sink's growth rule and the byte
    layout after an append, and the slices the pull responder copies out of
    the accumulated bytes. */
module Delivery {
  import opened MpegTsTypes

  function Min(a: nat, b: nat): nat { if a <= b then a else b }

  /** The capacity after the sink receives `incoming` bytes with `used` bytes
      already held: unchanged when they fit, otherwise exactly the bytes needed,
      with no headroom. */
  function GrownCapacity(size: nat, used: nat, incoming: nat): (cap: nat)
    ensures cap >= size && cap >= used + incoming
    ensures cap == size || cap == used + incoming
    ensures cap > size <==> used + incoming > size
  {
    if size < incoming + used then incoming + used else size
  }

  /** The buffer after `chunk` is copied in at offset `at`: the bytes before
      `at` are kept, the chunk follows, and whatever the buffer held beyond the
      chunk is kept as well. */
  function Splice(image: seq<byte>, at: nat, chunk: seq<byte>): (r: seq<byte>)
    requires at <= |image|
    ensures |r| == if at + |chunk| <= |image| then |image| else at + |chunk|
    ensures r[..at] == image[..at] && r[at..at + |chunk|] == chunk
    ensures r[..at + |chunk|] == image[..at] + chunk
    ensures forall i :: at + |chunk| <= i < |image| ==> r[i] == image[i]
  {
    image[..at] + chunk + (if at + |chunk| < |image| then image[at + |chunk|..] else [])
  }

  /** The bytes of a sequence of sink calls, in call order. */
  function Flatten(chunks: seq<seq<byte>>): seq<byte> {
    if chunks == [] then [] else Flatten(chunks[..|chunks| - 1]) + chunks[|chunks| - 1]
  }

  /** What one pull copies out of the accumulated bytes, and where the cursor goes. */
  datatype Pull = Pull(sent: seq<byte>, cursor: nat)

  /** One pull of at most `max` bytes at cursor `pos`: the next unsent bytes,
      as many as fit, with the cursor reset to 0 exactly when it reaches the
      end. A zero-byte pull leaves the cursor where it was. */
  function Deliver(contents: seq<byte>, pos: nat, max: nat): (p: Pull)
    requires pos < |contents|
    ensures |p.sent| == Min(max, |contents| - pos)
    ensures p.sent == contents[pos .. pos + |p.sent|]
    ensures p.cursor < |contents|
    ensures p.cursor == if pos + |p.sent| == |contents| then 0 else pos + |p.sent|
    ensures max == 0 ==> p.cursor == pos
  {
    var sent := if |contents| - pos > max then max else |contents| - pos;
    var next := pos + sent;
    Pull(contents[pos .. next], if next >= |contents| then 0 else next)
  }

  function Sum(maxes: seq<nat>): nat {
    if maxes == [] then 0 else maxes[0] + Sum(maxes[1..])
  }

  predicate AllPositive(maxes: seq<nat>) {
    forall i :: 0 <= i < |maxes| ==> maxes[i] > 0
  }

  /** Successive pulls from cursor `pos`, stopping at the pull that wraps the
      cursor back to 0 (the next pull would refill). */
  function Pulls(contents: seq<byte>, pos: nat, maxes: seq<nat>): Pull
    requires pos < |contents|
    decreases |maxes|
  {
    if maxes == [] then Pull([], pos)
    else
      var first := Deliver(contents, pos, maxes[0]);
      if first.cursor == 0 then first
      else
        var rest := Pulls(contents, first.cursor, maxes[1..]);
        Pull(first.sent + rest.sent, rest.cursor)
  }

  /** Pulls of any positive sizes deliver the unsent bytes in order, with no
      gap and no repetition: as many as the sizes add up to, at most up to the
      end, where the cursor wraps. */
  lemma {:induction false} PullsAreContiguous(contents: seq<byte>, pos: nat, maxes: seq<nat>)
    requires pos < |contents| && AllPositive(maxes)
    ensures |Pulls(contents, pos, maxes).sent| == Min(Sum(maxes), |contents| - pos)
    ensures Pulls(contents, pos, maxes).sent
              == contents[pos .. pos + |Pulls(contents, pos, maxes).sent|]
    ensures Pulls(contents, pos, maxes).cursor
              == if pos + |Pulls(contents, pos, maxes).sent| == |contents| then 0
                 else pos + |Pulls(contents, pos, maxes).sent|
    decreases |maxes|
  {
    if maxes != [] {
      var first := Deliver(contents, pos, maxes[0]);
      if first.cursor != 0 {
        var tail := maxes[1..];
        assert AllPositive(tail) by {
          forall i | 0 <= i < |tail| ensures tail[i] > 0 {
            assert tail[i] == maxes[i + 1];
          }
        }
        PullsAreContiguous(contents, first.cursor, tail);
        var rest := Pulls(contents, first.cursor, tail);
        assert first.cursor == pos + |first.sent|;
        assert first.sent + rest.sent == contents[pos .. first.cursor + |rest.sent|];
      }
    }
  }
}

=== FILE: layout.dfy ===
/** The expression-level decisions of the stream: the encoded dimensions, the
    YUV420P frame size and plane layout, the frame rate, which camera stream a
    connection reads, and the elapsed-time formula behind presentation times. */
module FrameLayout {
  import opened MpegTsTypes

  /** A sub-stream connection is encoded at half resolution, but only when both
      camera dimensions are multiples of 16. */
  predicate HalfResolution(cnct: ConnType, camWidth: nat, camHeight: nat) {
    cnct == TsSub && camWidth % 16 == 0 && camHeight % 16 == 0
  }

  /** The width and height a camera session encodes. */
  function StreamDims(cnct: ConnType, camWidth: nat, camHeight: nat): (dims: (nat, nat))
    ensures HalfResolution(cnct, camWidth, camHeight) ==>
              2 * dims.0 == camWidth && 2 * dims.1 == camHeight &&
              dims.0 % 8 == 0 && dims.1 % 8 == 0
    ensures !HalfResolution(cnct, camWidth, camHeight) ==> dims == (camWidth, camHeight)
  {
    if HalfResolution(cnct, camWidth, camHeight) then (camWidth / 2, camHeight / 2)
    else (camWidth, camHeight)
  }

  /** Bytes of one YUV420P frame: a full luma plane and two quarter chroma
      planes, rounded down by the integer division. */
  function FrameSize(width: nat, height: nat): (n: nat)
    ensures 2 * n <= 3 * (width * height) < 2 * n + 2
    ensures (width % 2 == 0 || height % 2 == 0) ==> 2 * n == 3 * (width * height)
  {
    assert (width % 2 == 0 || height % 2 == 0) ==> (width * height) % 2 == 0 by {
      if width % 2 == 0 {
        assert width * height == 2 * ((width / 2) * height);
      } else if height % 2 == 0 {
        assert width * height == 2 * (width * (height / 2));
      }
    }
    (width * height * 3) / 2
  }

  /** Plane 1 starts after the luma plane, plane 2 a quarter-plane later; the
      luma rows are `width` bytes, the chroma rows `width / 2`. */
  function Planes(width: nat, height: nat): (p: PlaneLayout)
    ensures p.offset1 == width * height && p.offset1 <= p.offset2
    ensures 4 * (p.offset2 - p.offset1) <= width * height < 4 * (p.offset2 - p.offset1) + 4
    ensures p.line1 == p.line2 == width / 2 && p.line0 == width
  {
    PlaneLayout(width * height, width * height + (width * height) / 4, width, width / 2, width / 2)
  }

  /** With even dimensions the three planes tile the frame buffer exactly:
      `height` luma rows, then `height / 2` rows of each chroma plane, ending
      at the frame size. */
  lemma PlanesTileFrame(width: nat, height: nat)
    requires width % 2 == 0 && height % 2 == 0
    ensures Planes(width, height).offset1 == Planes(width, height).line0 * height
    ensures Planes(width, height).offset2 - Planes(width, height).offset1
              == Planes(width, height).line1 * (height / 2)
    ensures FrameSize(width, height) - Planes(width, height).offset2
              == Planes(width, height).line2 * (height / 2)
  {
    var a, b := width / 2, height / 2;
    assert width * height == 4 * (a * b) by {
      assert width * height == (2 * a) * (2 * b);
    }
    assert (width * height) / 4 == a * b;
    assert width * height * 3 == 12 * (a * b);
    assert FrameSize(width, height) == 6 * (a * b);
  }

  /** A half-resolution frame holds exactly a quarter of the bytes of the full one. */
  lemma HalfFrameIsQuarter(cnct: ConnType, camWidth: nat, camHeight: nat)
    requires HalfResolution(cnct, camWidth, camHeight)
    ensures 4 * FrameSize(StreamDims(cnct, camWidth, camHeight).0,
                          StreamDims(cnct, camWidth, camHeight).1)
            == FrameSize(camWidth, camHeight)
  {
    var (w, h) := StreamDims(cnct, camWidth, camHeight);
    assert camWidth * camHeight == 4 * (w * h) by {
      assert camWidth * camHeight == (2 * w) * (2 * h);
    }
    assert 2 * FrameSize(w, h) == 3 * (w * h);
    assert 2 * FrameSize(camWidth, camHeight) == 3 * (camWidth * camHeight);
  }

  /** The frame rate of a camera stream: one frame per second while the camera
      sees no motion and the camera's `stream_motion` option is on, the
      configured maximum rate otherwise. */
  function StreamRate(detectingMotion: bool, streamMotion: bool, maxrate: int): (fps: int)
    ensures fps == 1 || fps == maxrate
    ensures fps != maxrate ==> !detectingMotion && streamMotion
    ensures (!detectingMotion && streamMotion) ==> fps == 1
  {
    if !detectingMotion && streamMotion then 1 else maxrate
  }

  /** The connection type that reads each camera stream. */
  function ConnOf(k: StreamKind): ConnType {
    match k
    case Norm => TsFull
    case Sub => TsSub
    case Motion => TsMotion
    case Source => TsSource
    case Secondary => TsSecondary
  }

  /** The camera stream a connection reads; no stream for the other connection types. */
  function StreamFor(cnct: ConnType): (k: Option<StreamKind>)
    ensures k.None? <==> cnct == Other
    ensures k.Some? ==> ConnOf(k.value) == cnct
  {
    match cnct
    case TsFull => Some(Norm)
    case TsSub => Some(Sub)
    case TsMotion => Some(Motion)
    case TsSource => Some(Source)
    case TsSecondary => Some(Secondary)
    case Other => None
  }

  /** The selection is one-to-one: each stream is read by exactly one connection type. */
  lemma StreamForRoundTrip(k: StreamKind, cnct: ConnType)
    ensures StreamFor(ConnOf(k)) == Some(k)
    ensures StreamFor(cnct) == Some(k) <==> cnct == ConnOf(k)
  {
    match k
    case Norm =>
    case Sub =>
    case Motion =>
    case Source =>
    case Secondary =>
  }

  /** Nanoseconds from `start` to `now`. */
  function ElapsedNanos(start: Timespec, now: Timespec): int {
    1000000000 * (now.sec - start.sec) + now.nsec - start.nsec
  }

  /** The elapsed time in whole microseconds, as the encoder step computes it:
      seconds scaled to microseconds plus the truncated microsecond parts. It is
      within one microsecond of the exact elapsed time. */
  function PtsInterval(start: Timespec, now: Timespec): (micros: int)
    requires start.Valid() && now.Valid()
    ensures ElapsedNanos(start, now) - 1000 < 1000 * micros < ElapsedNanos(start, now) + 1000
  {
    1000000 * (now.sec - start.sec) + now.nsec / 1000 - start.nsec / 1000
  }

  /** `t1` is not later than `t2`. */
  predicate NotAfter(t1: Timespec, t2: Timespec) {
    t1.sec < t2.sec || (t1.sec == t2.sec && t1.nsec <= t2.nsec)
  }

  /** Presentation times never go backwards while the clock does not. */
  lemma PtsMonotone(start: Timespec, t1: Timespec, t2: Timespec)
    requires start.Valid() && t1.Valid() && t2.Valid() && NotAfter(t1, t2)
    ensures PtsInterval(start, t1) <= PtsInterval(start, t2)
  {
    if t1.sec < t2.sec {
      assert 1000000 * (t2.sec - t1.sec) >= 1000000;
      assert t1.nsec / 1000 < 1000000;
    } else {
      assert t1.nsec / 1000 <= t2.nsec / 1000;
    }
  }
}

=== FILE: responder.dfy ===
/** The pull responder as a function of the accumulator's abstract state: the
    bytes held, the delivery cursor, and what one frame cycle (acquire, encode,
    mux) leaves in the accumulator. The session's imperative `Response` is
    proved to behave as `Respond` says. */
module Responder {
  import opened MpegTsTypes
  import opened FrameLayout
  import opened Delivery

  /** What receiving one packet gives, which is foreign code: it would block
      (EAGAIN), it fails, or a packet is written, the muxer calling the sink
      once per chunk it flushes, and the write reports success or failure. */
  datatype Packet =
    | ReceiveAgain
    | ReceiveFails
    | Written(chunks: seq<seq<byte>>, ok: bool)

  /** The outcome of the encoder calls of one cycle: sending the frame fails,
      or it is accepted and at most one packet is received. */
  datatype Encode = SendFails | Sent(packet: Packet)

  /** What the world supplies to one frame cycle: the finish check as the cycle
      sees it, the clock when the frame is sent, the composed image of an
      aggregate (all cameras) session, and the encoder/muxer outcome. */
  datatype Cycle = Cycle(finish: bool, now: Timespec, mosaic: seq<byte>, encode: Encode)

  /** A camera session of a connection type with no stream returns before
      acquiring a frame; every other cycle acquires and encodes one. */
  predicate Encodes(deviceId: int, cnct: ConnType) {
    deviceId <= 0 || StreamFor(cnct).Some?
  }

  /** The bytes the accumulator holds after a cycle: only the muxer's writes
      fill it, and they are kept even when the write then fails. */
  function CycleBytes(deviceId: int, cnct: ConnType, c: Cycle): seq<byte> {
    if c.finish || !Encodes(deviceId, cnct) then []
    else match c.encode
      case Sent(Written(chunks, _)) => Flatten(chunks)
      case _ => []
  }

  /** Whether the cycle reports success: it ends early without error, or the
      packet write succeeds. */
  predicate CycleOk(deviceId: int, cnct: ConnType, c: Cycle) {
    c.finish || !Encodes(deviceId, cnct) || (c.encode.Sent? && c.encode.packet.Written? && c.encode.packet.ok)
  }

  /** The accumulated bytes (`resp_image[0 .. resp_used)`) and the cursor. */
  datatype PullState = PullState(contents: seq<byte>, cursor: nat)

  /** The cursor is at 0 or strictly inside the accumulated bytes. */
  predicate CursorOk(s: PullState) {
    s.cursor == 0 || s.cursor < |s.contents|
  }

  /** The value a pull returns, the bytes it copies and the state it leaves. */
  datatype Reply = Reply(ret: int, sent: seq<byte>, state: PullState)

  /** One pull of at most `max` bytes. A finished stream ends with -1 and
      touches nothing. At cursor 0 the accumulator is refilled by one cycle; a
      failed cycle yields 0 bytes, and so does an empty accumulator, which is
      reset. Otherwise the next slice is copied and the cursor advanced. */
  function Respond(s: PullState, finish: bool, max: nat, deviceId: int, cnct: ConnType, c: Cycle): (r: Reply)
    requires CursorOk(s)
    ensures r.ret == -1 <==> finish
    ensures finish ==> r.state == s && r.sent == []
    ensures !finish ==> r.ret == |r.sent| <= max
    ensures CursorOk(r.state)
    ensures s.cursor != 0 && !finish ==>
              r.state.contents == s.contents && s.cursor + |r.sent| <= |s.contents| &&
              r.sent == s.contents[s.cursor .. s.cursor + |r.sent|]
    ensures s.cursor == 0 && !finish ==>
              r.state.contents == CycleBytes(deviceId, cnct, c) &&
              |r.sent| <= |r.state.contents| && r.sent == r.state.contents[..|r.sent|] &&
              (r.sent != [] ==> CycleOk(deviceId, cnct, c))
    ensures !finish && r.state.contents != [] && (s.cursor != 0 || CycleOk(deviceId, cnct, c)) ==>
              s.cursor < |r.state.contents| &&
              |r.sent| == Min(max, |r.state.contents| - s.cursor) &&
              r.state.cursor == if s.cursor + |r.sent| == |r.state.contents| then 0
                                else s.cursor + |r.sent|
    ensures !finish && (r.state.contents == [] || (s.cursor == 0 && !CycleOk(deviceId, cnct, c))) ==>
              r.sent == [] && r.state.cursor == 0
  {
    if finish then Reply(-1, [], s)
    else
      var refilled := if s.cursor == 0 then PullState(CycleBytes(deviceId, cnct, c), 0) else s;
      if s.cursor == 0 && !CycleOk(deviceId, cnct, c) then Reply(0, [], refilled)
      else if |refilled.contents| == 0 then Reply(0, [], PullState([], 0))
      else
        var p := Deliver(refilled.contents, refilled.cursor, max);
        Reply(|p.sent|, p.sent, PullState(refilled.contents, p.cursor))
  }

  /** Successive pulls, none of them finishing, every refill made by cycle
      `c`, stopping after the pull that leaves the cursor at 0. */
  function Train(s: PullState, maxes: seq<nat>, deviceId: int, cnct: ConnType, c: Cycle): Reply
    requires CursorOk(s)
    decreases |maxes|
  {
    if maxes == [] then Reply(0, [], s)
    else
      var first := Respond(s, false, maxes[0], deviceId, cnct, c);
      if first.state.cursor == 0 then first
      else
        var rest := Train(first.state, maxes[1..], deviceId, cnct, c);
        Reply(first.ret + rest.ret, first.sent + rest.sent, rest.state)
  }

  /** While a frame is being delivered, pulls are exactly the slices `Pulls`
      describes; no refill happens before the cursor wraps. */
  lemma {:induction false} TrainDelivering(s: PullState, maxes: seq<nat>, deviceId: int, cnct: ConnType, c: Cycle)
    requires 0 < s.cursor < |s.contents|
    ensures Train(s, maxes, deviceId, cnct, c).sent == Pulls(s.contents, s.cursor, maxes).sent
    ensures Train(s, maxes, deviceId, cnct, c).state
              == PullState(s.contents, Pulls(s.contents, s.cursor, maxes).cursor)
    decreases |maxes|
  {
    if maxes != [] {
      var first := Respond(s, false, maxes[0], deviceId, cnct, c);
      assert first.state.cursor == Deliver(s.contents, s.cursor, maxes[0]).cursor;
      if first.state.cursor != 0 {
        TrainDelivering(first.state, maxes[1..], deviceId, cnct, c);
      }
    }
  }

  /** Chunking invariance: once a cycle has produced bytes, pulls of any
      positive sizes that together cover them deliver exactly those bytes, in
      order, whatever the split, and the cursor ends back at 0 ready to refill. */
  lemma WholeFrameAnyChunking(s: PullState, maxes: seq<nat>, deviceId: int, cnct: ConnType, c: Cycle)
    requires s.cursor == 0 && AllPositive(maxes)
    requires CycleOk(deviceId, cnct, c) && CycleBytes(deviceId, cnct, c) != []
    requires Sum(maxes) >= |CycleBytes(deviceId, cnct, c)|
    ensures Train(s, maxes, deviceId, cnct, c).sent == CycleBytes(deviceId, cnct, c)
    ensures Train(s, maxes, deviceId, cnct, c).state == PullState(CycleBytes(deviceId, cnct, c), 0)
  {
    var bytes := CycleBytes(deviceId, cnct, c);
    var first := Respond(s, false, maxes[0], deviceId, cnct, c);
    var d := Deliver(bytes, 0, maxes[0]);
    assert first.sent == d.sent && first.state == PullState(bytes, d.cursor);
    PullsAreContiguous(bytes, 0, maxes);
    if d.cursor != 0 {
      TrainDelivering(first.state, maxes[1..], deviceId, cnct, c);
      assert Pulls(bytes, 0, maxes).sent == d.sent + Pulls(bytes, d.cursor, maxes[1..]).sent;
    }
  }

  /** A zero-byte pull right after a refill leaves the cursor at 0, so the next
      pull refills again and the bytes of the first cycle are never delivered. */
  lemma ZeroPullDropsFrame(s: PullState, deviceId: int, cnct: ConnType, c1: Cycle, max: nat, c2: Cycle)
    requires s.cursor == 0
    ensures Respond(s, false, 0, deviceId, cnct, c1).sent == []
    ensures Respond(s, false, 0, deviceId, cnct, c1).state.cursor == 0
    ensures Respond(Respond(s, false, 0, deviceId, cnct, c1).state, false, max, deviceId, cnct, c2).state.contents
              == CycleBytes(deviceId, cnct, c2)
  {
    var first := Respond(s, false, 0, deviceId, cnct, c1);
    if CycleBytes(deviceId, cnct, c1) != [] {
      assert Deliver(CycleBytes(deviceId, cnct, c1), 0, 0).cursor == 0;
    }
  }
}

=== FILE: session.dfy ===
/** The MPEG-TS stream session (`ctx_webui`) and the camera it reads, with the
    operations of the stream as methods that update them in place: the muxer's
    sink callback, the pull responder, the frame cycle, session open and
    teardown. FFmpeg, the clock and the HTTP layer are parameters. */
module MpegTs {
  import opened MpegTsTypes
  import opened FrameLayout
  import opened Delivery
  import opened Responder
  import opened Teardown

  /** The results of the foreign calls of session open: opening the encoder,
      copying its parameters to the stream, and writing the container header
      (the chunks the muxer pushes through the sink, then success or failure). */
  datatype OpenSteps = OpenSteps(codecOpens: bool, paramsCopied: bool, header: seq<seq<byte>>, headerOk: bool)

  /** Size of the AVIO context's own I/O buffer. */
  const AvioBufferSize: nat := 4096

  /** Frame rate a session starts with, so that the first frame is not delayed. */
  const StartupFps: int := 10000

  /** The frame a camera stream yields: a copy of its latest image, or a black
      (all-zero) frame before the first capture. */
  function CopyFrame(img: Option<seq<byte>>, size: nat): (frame: seq<byte>)
    requires img.Some? ==> size <= |img.value|
    ensures |frame| == size
    ensures img.Some? ==> frame == img.value[..size]
    ensures img.None? ==> forall i :: 0 <= i < size ==> frame[i] == 0
  {
    match img
    case Some(v) => v[..size]
    case None => seq(size, _ => 0 as byte)
  }

  /** The streams after a reader copied stream `k`: its image is marked
      consumed, unless there was no image to copy. */
  function MarkConsumed(streams: map<StreamKind, StreamData>, k: StreamKind): map<StreamKind, StreamData> {
    if k in streams && streams[k].imgData.Some? then streams[k := streams[k].(consumed := true)]
    else streams
  }

  /** The frame descriptor the encoder step leaves for a codec and a
      presentation time. */
  function FrameFor(c: CodecCtx, ptsMicros: int): Frame {
    Frame(c.width, c.height, Planes(c.width, c.height), ptsMicros)
  }

  /** `memcpy(dst + at, src, |src|)`. */
  method MemCopy(dst: array<byte>, at: nat, src: seq<byte>)
    requires at + |src| <= dst.Length
    modifies dst
    ensures dst[..] == old(dst[..at]) + src + old(dst[at + |src|..])
  {
    var i := 0;
    while i < |src|
      invariant 0 <= i <= |src|
      invariant forall k :: 0 <= k < at ==> dst[k] == old(dst[k])
      invariant forall k :: 0 <= k < i ==> dst[at + k] == src[k]
      invariant forall k :: at + i <= k < dst.Length ==> dst[k] == old(dst[k])
    {
      dst[at + i] := src[i];
      i := i + 1;
    }
    assert dst[..] == old(dst[..at]) + src + old(dst[at + |src|..]) by {
      var want := old(dst[..at]) + src + old(dst[at + |src|..]);
      forall k | 0 <= k < dst.Length ensures dst[k] == want[k] {
        if k >= at && k < at + |src| {
          assert dst[at + (k - at)] == src[k - at];
        }
      }
    }
  }

  /** `memset(dst, 0, dst.Length)`. */
  method MemZero(dst: array<byte>)
    modifies dst
    ensures forall k :: 0 <= k < dst.Length ==> dst[k] == 0
  {
    var i := 0;
    while i < dst.Length
      invariant 0 <= i <= dst.Length
      invariant forall k :: 0 <= k < i ==> dst[k] == 0
    {
      dst[i] := 0;
      i := i + 1;
    }
  }

  /** The camera a session reads: its motion state, dimensions, stream
      configuration and the latest image of each of its streams. */
  class Camera {
    var detectingMotion: bool
    var width: nat
    var height: nat
    var conf: CamConf
    var streams: map<StreamKind, StreamData>

    ghost predicate Valid()
      reads this
    {
      forall k: StreamKind :: k in streams
    }

    /** A camera that has captured nothing yet. */
    constructor (width: nat, height: nat, conf: CamConf)
      ensures Valid() && !detectingMotion
      ensures this.width == width && this.height == height && this.conf == conf
      ensures forall k: StreamKind :: streams[k] == StreamData(None, false)
    {
      detectingMotion := false;
      this.width, this.height, this.conf := width, height, conf;
      var empty := StreamData(None, false);
      var all := map[Norm := empty, Sub := empty, Motion := empty, Source := empty, Secondary := empty];
      forall k: StreamKind ensures k in all && all[k] == empty {
        assert k.Norm? || k.Sub? || k.Motion? || k.Source? || k.Secondary?;
      }
      streams := all;
    }
  }

  /** One client connection's stream session. */
  class Session {
    const deviceId: int
    const cnctType: ConnType
    const cam: Camera

    /** The output accumulator: buffer, capacity and fill level. */
    var respImage: array<byte>
    var respSize: nat
    var respUsed: nat
    /** How much of the accumulator has been delivered. */
    var streamPos: nat

    var streamFps: int
    var startTime: Timespec
    var aviobufSize: nat

    /** The native handles; `None` is NULL. */
    var picture: Option<Frame>
    var codec: Option<CodecCtx>
    var fmtctx: Option<FormatCtx>

    /** The frames handed to the encoder, in order. */
    ghost var Submitted: seq<seq<byte>>
    /** The native handles released, in call order. */
    ghost var Released: seq<Handle>

    ghost predicate Valid()
      reads this, respImage
    {
      respImage.Length == respSize && respUsed <= respSize &&
      (streamPos == 0 || streamPos < respUsed) &&
      startTime.Valid() &&
      (picture.Some? ==>
         codec.Some? && picture.value == FrameFor(codec.value, picture.value.ptsMicros))
    }

    /** The bytes accumulated and not yet dropped: `resp_image[0 .. resp_used)`. */
    ghost function Contents(): seq<byte>
      reads this, respImage
      requires Valid()
    {
      respImage[..respUsed]
    }

    ghost function State(): PullState
      reads this, respImage
      requires Valid()
    {
      PullState(Contents(), streamPos)
    }

    /** Every byte past the fill level is zero. */
    ghost predicate ZeroTail()
      reads this, respImage
    {
      forall k :: respUsed <= k < respImage.Length ==> respImage[k] == 0
    }

    /** Encoder, muxer and its AVIO context are all open. */
    predicate Ready()
      reads this
    {
      codec.Some? && fmtctx.Some? && fmtctx.value.pb.Some?
    }

    /** The stream image a camera session copies holds at least one frame. */
    ghost predicate SourceFits()
      reads this, cam
      requires Ready() && cam.Valid()
    {
      deviceId > 0 && StreamFor(cnctType).Some? &&
      cam.streams[StreamFor(cnctType).value].imgData.Some? ==>
        FrameSize(codec.value.width, codec.value.height)
          <= |cam.streams[StreamFor(cnctType).value].imgData.value|
    }

    /** The frame a cycle hands to the encoder. */
    ghost function FrameToSend(c: Cycle): seq<byte>
      reads this, cam
      requires Ready() && cam.Valid() && SourceFits()
    {
      if deviceId <= 0 then c.mosaic
      else match StreamFor(cnctType)
        case None => []
        case Some(k) => CopyFrame(cam.streams[k].imgData, FrameSize(codec.value.width, codec.value.height))
    }

    /** The dimensions session open chooses for the encoder. */
    ghost function OpenDims(mosaicDims: (nat, nat)): (nat, nat)
      reads this, cam
    {
      if deviceId > 0 then StreamDims(cnctType, cam.width, cam.height) else mosaicDims
    }

    /** The session record as the web interface hands it over: a response
        buffer of `capacity` bytes, nothing accumulated, no native handle. */
    constructor (deviceId: int, cnctType: ConnType, cam: Camera, capacity: nat)
      ensures Valid() && fresh(respImage)
      ensures this.deviceId == deviceId && this.cnctType == cnctType && this.cam == cam
      ensures respSize == capacity && respUsed == 0 && streamPos == 0
      ensures picture.None? && codec.None? && fmtctx.None?
      ensures Submitted == [] && Released == []
    {
      this.deviceId, this.cnctType, this.cam := deviceId, cnctType, cam;
      respImage := new byte[capacity];
      respSize, respUsed, streamPos := capacity, 0, 0;
      streamFps, startTime, aviobufSize := 0, Timespec(0, 0), 0;
      picture, codec, fmtctx := None, None, None;
      Submitted, Released := [], [];
    }

    /** The muxer's write callback: grow the buffer to exactly what is needed
        when the chunk does not fit (keeping the old bytes), append the chunk,
        and report every byte as consumed. */
    method AvioBuf(chunk: seq<byte>) returns (consumed: int)
      requires Valid()
      modifies this`respImage, this`respSize, this`respUsed, respImage
      ensures Valid() && consumed == |chunk|
      ensures respSize == GrownCapacity(old(respSize), old(respUsed), |chunk|)
      ensures respUsed == old(respUsed) + |chunk|
      ensures respImage[..] == Splice(old(respImage[..]), old(respUsed), chunk)
      ensures Contents() == old(Contents()) + chunk
      ensures old(ZeroTail()) ==> ZeroTail()
      ensures respImage == old(respImage) || fresh(respImage)
    {
      if respSize < |chunk| + respUsed {
        respSize := |chunk| + respUsed;
        var grown := new byte[respSize];
        MemCopy(grown, 0, respImage[..]);
        respImage := grown;
      }
      MemCopy(respImage, respUsed, chunk);
      respUsed := respUsed + |chunk|;
      consumed := |chunk|;
    }

    /** Feed the chunks one muxer write flushes through the sink, in order. */
    method MuxerWrite(chunks: seq<seq<byte>>)
      requires Valid()
      modifies this`respImage, this`respSize, this`respUsed, respImage
      ensures Valid()
      ensures Contents() == old(Contents()) + Flatten(chunks)
      ensures old(ZeroTail()) ==> ZeroTail()
      ensures respSize == GrownCapacity(old(respSize), old(respUsed), |Flatten(chunks)|)
      ensures respImage == old(respImage) || fresh(respImage)
    {
      var i := 0;
      while i < |chunks|
        invariant 0 <= i <= |chunks|
        invariant Valid()
        invariant Contents() == old(Contents()) + Flatten(chunks[..i])
        invariant respSize == GrownCapacity(old(respSize), old(respUsed), |Flatten(chunks[..i])|)
        invariant old(ZeroTail()) ==> ZeroTail()
        invariant respImage == old(respImage) || fresh(respImage)
      {
        var _ := AvioBuf(chunks[i]);
        assert chunks[..i + 1][..i] == chunks[..i];
        i := i + 1;
      }
      assert chunks[..i] == chunks;
    }

    /** Empty the accumulator and rewind the cursor. */
    method ResetPos()
      requires Valid()
      modifies this`streamPos, this`respUsed
      ensures Valid() && streamPos == 0 && respUsed == 0
    {
      streamPos := 0;
      respUsed := 0;
    }

    /** Hand one frame to the encoder. The frame descriptor is allocated on
        first use with the codec's geometry; the plane pointers and the
        presentation time are set for every frame. A rejected frame frees the
        descriptor. */
    method PicSend(img: seq<byte>, now: Timespec, sendOk: bool) returns (r: int)
      requires Valid() && Ready() && now.Valid()
      modifies this`picture, this`Submitted
      ensures Valid()
      ensures Submitted == old(Submitted) + [img]
      ensures sendOk ==> r == 0 && picture == Some(FrameFor(codec.value, PtsInterval(startTime, now)))
      ensures !sendOk ==> r == -1 && picture.None?
    {
      var w, h := codec.value.width, codec.value.height;
      if picture.None? {
        picture := Some(Frame(w, h, PlaneLayout(0, 0, w, w / 2, w / 2), 1));
      }
      var frame := picture.value;
      var layout := frame.layout.(offset1 := w * h, offset2 := w * h + (w * h) / 4);
      var ptsInterval := 1000000 * (now.sec - startTime.sec) + now.nsec / 1000 - startTime.nsec / 1000;
      picture := Some(frame.(layout := layout, ptsMicros := ptsInterval));
      Submitted := Submitted + [img];
      if !sendOk {
        picture := None;
        return -1;
      }
      return 0;
    }

    /** Receive at most one packet and write it; would-block and errors both
        report -1. */
    method PicGet(packet: Packet) returns (r: int)
      requires Valid() && Ready()
      modifies this`respImage, this`respSize, this`respUsed, respImage
      ensures Valid()
      ensures r == (if packet.Written? && packet.ok then 0 else -1)
      ensures Contents() == old(Contents()) + (if packet.Written? then Flatten(packet.chunks) else [])
      ensures old(ZeroTail()) ==> ZeroTail()
      ensures respSize == GrownCapacity(old(respSize), old(respUsed), if packet.Written? then |Flatten(packet.chunks)| else 0)
      ensures respImage == old(respImage) || fresh(respImage)
    {
      match packet
      case ReceiveAgain =>
        return -1;
      case ReceiveFails =>
        return -1;
      case Written(chunks, ok) =>
        MuxerWrite(chunks);
        return if ok then 0 else -1;
    }

    /** One frame cycle: unless the stream is finishing, clear the
        accumulator, choose the frame rate, copy the frame of the selected
        stream (or a black frame, or the mosaic of an aggregate session),
        encode it and write at most one packet through the sink. */
    method GetImg(c: Cycle) returns (r: int)
      requires Valid() && Ready() && cam.Valid() && SourceFits() && c.now.Valid()
      requires streamPos == 0
      modifies this, respImage, cam`streams
      ensures Valid() && Ready() && cam.Valid()
      ensures r == (if CycleOk(deviceId, cnctType, c) then 0 else -1)
      ensures State() == PullState(CycleBytes(deviceId, cnctType, c), 0)
      ensures !c.finish ==> ZeroTail()
      ensures respSize == GrownCapacity(old(respSize), 0, |CycleBytes(deviceId, cnctType, c)|)
      ensures respImage == old(respImage) || fresh(respImage)
      ensures codec == old(codec) && fmtctx == old(fmtctx) && startTime == old(startTime)
      ensures aviobufSize == old(aviobufSize) && Released == old(Released)
      ensures picture == if c.finish || !Encodes(deviceId, cnctType) then old(picture)
                         else if !c.encode.Sent? then None
                         else Some(FrameFor(codec.value, PtsInterval(startTime, c.now)))
      ensures !c.finish && deviceId > 0 ==>
                streamFps == StreamRate(cam.detectingMotion, cam.conf.streamMotion, cam.conf.streamMaxrate)
      ensures c.finish || deviceId <= 0 ==> streamFps == old(streamFps)
      ensures Submitted == old(Submitted) +
                (if !c.finish && Encodes(deviceId, cnctType) then [old(FrameToSend(c))] else [])
      ensures cam.streams ==
                if !c.finish && deviceId > 0 && StreamFor(cnctType).Some?
                then MarkConsumed(old(cam.streams), StreamFor(cnctType).value)
                else old(cam.streams)
    {
      if c.finish {
        ResetPos();
        return 0;
      }
      MemZero(respImage);
      respUsed := 0;
      var frame := AcquireFrame(c);
      if frame.None? {
        return 0;
      }
      var sent := PicSend(frame.value, c.now, c.encode.Sent?);
      if sent < 0 {
        return -1;
      }
      r := PicGet(c.encode.packet);
    }

    /** The acquisition step of a frame cycle. A camera session sets the frame
        rate, selects the stream of its connection type (none for other
        types) and, as one step under the stream's lock, copies its image or
        makes a black frame when there is none yet, marking a copied image
        consumed. An aggregate session copies the composed mosaic. */
    method AcquireFrame(c: Cycle) returns (frame: Option<seq<byte>>)
      requires Ready() && cam.Valid() && SourceFits()
      modifies this`streamFps, cam`streams
      ensures cam.Valid()
      ensures frame == if Encodes(deviceId, cnctType) then Some(old(FrameToSend(c))) else None
      ensures deviceId > 0 ==>
                streamFps == StreamRate(cam.detectingMotion, cam.conf.streamMotion, cam.conf.streamMaxrate)
      ensures deviceId <= 0 ==> streamFps == old(streamFps)
      ensures cam.streams ==
                if deviceId > 0 && StreamFor(cnctType).Some?
                then MarkConsumed(old(cam.streams), StreamFor(cnctType).value)
                else old(cam.streams)
    {
      ghost var expected := FrameToSend(c);
      var img: array<byte>;
      if deviceId > 0 {
        if !cam.detectingMotion && cam.conf.streamMotion {
          streamFps := 1;
        } else {
          streamFps := cam.conf.streamMaxrate;
        }
        var selected := StreamFor(cnctType);
        if selected.None? {
          return None;
        }
        var imgSize := FrameSize(codec.value.width, codec.value.height);
        img := new byte[imgSize];
        var strm := cam.streams[selected.value];
        if strm.imgData.None? {
          MemZero(img);
          assert img[..] == CopyFrame(strm.imgData, imgSize) == expected;
        } else {
          MemCopy(img, 0, strm.imgData.value[..imgSize]);
          assert img[..] == CopyFrame(strm.imgData, imgSize) == expected;
          cam.streams := cam.streams[selected.value := strm.(consumed := true)];
        }
      } else {
        img := new byte[|c.mosaic|];
        MemCopy(img, 0, c.mosaic);
        assert img[..] == c.mosaic == expected;
      }
      return Some(img[..]);
    }

    /** The pull responder: end the stream with -1 once it is finishing; at
        cursor 0 run a frame cycle to refill the accumulator (0 bytes when the
        cycle fails); 0 bytes, and a reset, when nothing is accumulated;
        otherwise copy the next slice of at most `max` bytes into `buf`,
        advance the cursor and wrap it to 0 at the end. */
    method Response(finish: bool, max: nat, buf: array<byte>, c: Cycle) returns (r: int)
      requires Valid() && Ready() && cam.Valid() && SourceFits() && c.now.Valid()
      requires max <= buf.Length && buf != respImage
      modifies this, respImage, buf, cam`streams
      ensures Valid() && Ready() && cam.Valid()
      ensures r == Respond(old(State()), finish, max, deviceId, cnctType, c).ret
      ensures State() == Respond(old(State()), finish, max, deviceId, cnctType, c).state
      ensures buf[..] == Respond(old(State()), finish, max, deviceId, cnctType, c).sent
                         + old(buf[..])[|Respond(old(State()), finish, max, deviceId, cnctType, c).sent|..]
      ensures respSize == if !finish && old(streamPos) == 0
                          then GrownCapacity(old(respSize), 0, |CycleBytes(deviceId, cnctType, c)|)
                          else old(respSize)
      ensures codec == old(codec) && fmtctx == old(fmtctx) && Released == old(Released)
      ensures startTime == old(startTime) && aviobufSize == old(aviobufSize)
      ensures respImage == old(respImage) || fresh(respImage)
      ensures finish || old(streamPos) != 0 ==>
                cam.streams == old(cam.streams) && picture == old(picture) &&
                Submitted == old(Submitted) && streamFps == old(streamFps)
      ensures !finish && old(streamPos) == 0 ==>
                Submitted == old(Submitted) +
                  (if !c.finish && Encodes(deviceId, cnctType) then [old(FrameToSend(c))] else [])
      ensures !finish && old(streamPos) == 0 ==>
                cam.streams == if !c.finish && deviceId > 0 && StreamFor(cnctType).Some?
                               then MarkConsumed(old(cam.streams), StreamFor(cnctType).value)
                               else old(cam.streams)
      ensures !finish && old(streamPos) == 0 ==>
                streamFps == if !c.finish && deviceId > 0
                             then StreamRate(cam.detectingMotion, cam.conf.streamMotion, cam.conf.streamMaxrate)
                             else old(streamFps)
      ensures !finish && old(streamPos) == 0 ==>
                picture == if c.finish || !Encodes(deviceId, cnctType) then old(picture)
                           else if !c.encode.Sent? then None
                           else Some(FrameFor(codec.value, PtsInterval(startTime, c.now)))
    {
      ghost var before := State();
      ghost var bufBefore := buf[..];
      if finish {
        assert bufBefore[0..] == bufBefore;
        return -1;
      }
      if streamPos == 0 {
        // pacing (the wait before a new frame) is not part of this model
        ResetPos();
        var got := GetImg(c);
        if got < 0 {
          assert bufBefore[0..] == bufBefore;
          return 0;
        }
      }
      if respUsed == 0 {
        ResetPos();
        assert bufBefore[0..] == bufBefore;
        return 0;
      }
      assert buf[..] == bufBefore;
      r := CopyOut(max, buf);
    }

    /** The copy step of a pull: the next slice of at most `max` accumulated
        bytes goes to the front of `buf`, and the cursor advances past it,
        wrapping to 0 at the end of the accumulated bytes. */
    method CopyOut(max: nat, buf: array<byte>) returns (sent: nat)
      requires Valid() && streamPos < respUsed
      requires max <= buf.Length && buf != respImage
      modifies this`streamPos, buf
      ensures Valid() && Contents() == old(Contents())
      ensures sent == |Deliver(old(Contents()), old(streamPos), max).sent|
      ensures buf[..] == Deliver(old(Contents()), old(streamPos), max).sent + old(buf[..])[sent..]
      ensures streamPos == Deliver(old(Contents()), old(streamPos), max).cursor
    {
      ghost var p := Deliver(Contents(), streamPos, max);
      if respUsed - streamPos > max {
        sent := max;
      } else {
        sent := respUsed - streamPos;
      }
      assert respImage[streamPos .. streamPos + sent] == p.sent;
      MemCopy(buf, 0, respImage[streamPos .. streamPos + sent]);
      streamPos := streamPos + sent;
      if streamPos >= respUsed {
        streamPos := 0;
      }
    }

    /** Release every native handle still held, each behind its own null
        check, in the fixed order picture, codec, AVIO buffer, AVIO context,
        format context. */
    method FreeContext()
      requires Valid()
      modifies this`picture, this`codec, this`fmtctx, this`Released
      ensures Valid()
      ensures picture.None? && codec.None? && fmtctx.None?
      ensures Released == old(Released) + ReleasePlan(old(picture), old(codec), old(fmtctx))
      ensures old(picture).None? && old(codec).None? && old(fmtctx).None? ==> Released == old(Released)
    {
      if picture.Some? {
        Released := Released + [Picture];
        picture := None;
      }
      if codec.Some? {
        Released := Released + [Codec];
        codec := None;
      }
      FreeFormatContext();
    }

    /** The format-context part of teardown: the AVIO buffer, then the AVIO
        context, then the format context itself. */
    method FreeFormatContext()
      modifies this`fmtctx, this`Released
      ensures fmtctx.None?
      ensures Released == old(Released) + FormatPart(old(fmtctx))
    {
      if fmtctx.Some? {
        if fmtctx.value.pb.Some? {
          if fmtctx.value.pb.value.buffer {
            Released := Released + [AvioBuffer];
            fmtctx := Some(FormatCtx(Some(AvioCtx(false))));
          }
          Released := Released + [AvioContext];
          fmtctx := Some(FormatCtx(None));
        }
        Released := Released + [FormatContext];
        fmtctx := None;
      }
    }

    /** Open the stream: forget any handles, note the start time, create the
        muxer and an encoder at the chosen dimensions, bind the sink and write
        the container header. Any failing step tears everything down and
        reports -1. On success the accumulator is emptied, so whatever the
        header write pushed through the sink is not delivered. */
    method Open(now: Timespec, mosaicDims: (nat, nat), steps: OpenSteps) returns (r: int)
      requires Valid() && now.Valid()
      modifies this, respImage
      ensures Valid()
      ensures r == 0 <==> steps.codecOpens && steps.paramsCopied && steps.headerOk
      ensures r == 0 || r == -1
      ensures startTime == now && streamFps == StartupFps && picture.None?
      ensures r == 0 ==> Ready() && streamPos == 0 && respUsed == 0 && aviobufSize == AvioBufferSize &&
                         codec == Some(CodecCtx(old(OpenDims(mosaicDims)).0, old(OpenDims(mosaicDims)).1)) &&
                         fmtctx == Some(FormatCtx(Some(AvioCtx(true)))) &&
                         Released == old(Released)
      ensures r == -1 ==> codec.None? && fmtctx.None? &&
                          Released == old(Released) +
                            ReleasePlan(None, Some(CodecCtx(old(OpenDims(mosaicDims)).0, old(OpenDims(mosaicDims)).1)),
                                        Some(FormatCtx(if steps.codecOpens && steps.paramsCopied
                                                       then Some(AvioCtx(true)) else None)))
      ensures respSize == if steps.codecOpens && steps.paramsCopied
                          then GrownCapacity(old(respSize), old(respUsed), |Flatten(steps.header)|)
                          else old(respSize)
      ensures aviobufSize == if steps.codecOpens && steps.paramsCopied then AvioBufferSize else old(aviobufSize)
      ensures r == -1 ==> streamPos == old(streamPos) &&
                          Contents() == old(Contents()) +
                            (if steps.codecOpens && steps.paramsCopied then Flatten(steps.header) else [])
      ensures Submitted == old(Submitted)
      ensures respImage == old(respImage) || fresh(respImage)
    {
      picture, codec, fmtctx := None, None, None;
      streamFps := StartupFps;
      startTime := now;
      var dims: (nat, nat);
      if deviceId > 0 {
        dims := StreamDims(cnctType, cam.width, cam.height);
      } else {
        dims := mosaicDims;
      }
      r := OpenEncoder(dims, steps);
    }

    /** The part of session open after the dimensions are chosen: the muxer,
        the encoder, the sink binding and the header, torn down on failure. */
    method OpenEncoder(dims: (nat, nat), steps: OpenSteps) returns (r: int)
      requires Valid() && picture.None? && codec.None? && fmtctx.None?
      modifies this`picture, this`codec, this`fmtctx, this`aviobufSize, this`Released, this`streamPos,
               this`respImage, this`respSize, this`respUsed, respImage
      ensures Valid() && picture.None?
      ensures r == 0 <==> steps.codecOpens && steps.paramsCopied && steps.headerOk
      ensures r == 0 || r == -1
      ensures r == 0 ==> Ready() && streamPos == 0 && respUsed == 0 && aviobufSize == AvioBufferSize &&
                         codec == Some(CodecCtx(dims.0, dims.1)) &&
                         fmtctx == Some(FormatCtx(Some(AvioCtx(true)))) &&
                         Released == old(Released)
      ensures r == -1 ==> codec.None? && fmtctx.None? &&
                          Released == old(Released) +
                            ReleasePlan(None, Some(CodecCtx(dims.0, dims.1)),
                                        Some(FormatCtx(if steps.codecOpens && steps.paramsCopied
                                                       then Some(AvioCtx(true)) else None)))
      ensures respSize == if steps.codecOpens && steps.paramsCopied
                          then GrownCapacity(old(respSize), old(respUsed), |Flatten(steps.header)|)
                          else old(respSize)
      ensures aviobufSize == if steps.codecOpens && steps.paramsCopied then AvioBufferSize else old(aviobufSize)
      ensures respImage == old(respImage) || fresh(respImage)
      ensures r == -1 ==> streamPos == old(streamPos) &&
                          Contents() == old(Contents()) +
                            (if steps.codecOpens && steps.paramsCopied then Flatten(steps.header) else [])
    {
      fmtctx := Some(FormatCtx(None));
      codec := Some(CodecCtx(dims.0, dims.1));
      if !steps.codecOpens || !steps.paramsCopied {
        FreeContext();
        return -1;
      }
      aviobufSize := AvioBufferSize;
      fmtctx := Some(FormatCtx(Some(AvioCtx(true))));
      MuxerWrite(steps.header);
      if !steps.headerOk {
        FreeContext();
        return -1;
      }
      streamPos := 0;
      respUsed := 0;
      return 0;
    }
  }
}

=== FILE: teardown.dfy ===
/** The release calls session teardown makes, as a function of which native
    handles the session still holds. */
module Teardown {
  import opened MpegTsTypes

  /** Position of each handle in the fixed teardown order. */
  function Rank(h: Handle): nat {
    match h
    case Picture => 0
    case Codec => 1
    case AvioBuffer => 2
    case AvioContext => 3
    case FormatContext => 4
  }

  /** The handles released, in call order: every held handle once, each
      release guarded by its own null check; the AVIO buffer and context are
      reached only through a held format context. */
  function ReleasePlan(picture: Option<Frame>, codec: Option<CodecCtx>, fmtctx: Option<FormatCtx>): seq<Handle> {
    PicturePart(picture) + CodecPart(codec) + FormatPart(fmtctx)
  }

  function PicturePart(picture: Option<Frame>): seq<Handle> {
    if picture.Some? then [Picture] else []
  }

  function CodecPart(codec: Option<CodecCtx>): seq<Handle> {
    if codec.Some? then [Codec] else []
  }

  function AvioPart(pb: Option<AvioCtx>): seq<Handle> {
    match pb
    case None => []
    case Some(ctx) => (if ctx.buffer then [AvioBuffer] else []) + [AvioContext]
  }

  function FormatPart(fmtctx: Option<FormatCtx>): seq<Handle> {
    match fmtctx
    case None => []
    case Some(f) => AvioPart(f.pb) + [FormatContext]
  }

  /** Ranks strictly increase along `s`. */
  predicate Ascending(s: seq<Handle>) {
    forall i, j :: 0 <= i < j < |s| ==> Rank(s[i]) < Rank(s[j])
  }

  lemma AscendingConcat(x: seq<Handle>, y: seq<Handle>, bound: nat)
    requires Ascending(x) && Ascending(y)
    requires forall i :: 0 <= i < |x| ==> Rank(x[i]) < bound
    requires forall j :: 0 <= j < |y| ==> bound <= Rank(y[j])
    ensures Ascending(x + y)
  {
    forall i, j | 0 <= i < j < |x + y| ensures Rank((x + y)[i]) < Rank((x + y)[j]) {
      if j < |x| {
        assert (x + y)[i] == x[i] && (x + y)[j] == x[j];
      } else if i < |x| {
        assert (x + y)[i] == x[i] && (x + y)[j] == y[j - |x|];
      } else {
        assert (x + y)[i] == y[i - |x|] && (x + y)[j] == y[j - |x|];
      }
    }
  }

  /** The part of the plan reached through the format context. */
  lemma FormatPartAscending(fmtctx: Option<FormatCtx>)
    ensures Ascending(FormatPart(fmtctx))
    ensures forall j :: 0 <= j < |FormatPart(fmtctx)| ==> 2 <= Rank(FormatPart(fmtctx)[j])
  {
    match fmtctx
    case None =>
    case Some(f) =>
      match f.pb
      case None => assert FormatPart(fmtctx) == [FormatContext];
      case Some(pb) =>
        if pb.buffer {
          assert FormatPart(fmtctx) == [AvioBuffer, AvioContext, FormatContext];
        } else {
          assert FormatPart(fmtctx) == [AvioContext, FormatContext];
        }
  }

  /** Teardown releases in the order picture, codec, AVIO buffer, AVIO context,
      format context, so never the same handle twice. */
  lemma ReleasePlanOrdered(picture: Option<Frame>, codec: Option<CodecCtx>, fmtctx: Option<FormatCtx>)
    ensures Ascending(ReleasePlan(picture, codec, fmtctx))
  {
    var front := PicturePart(picture) + CodecPart(codec);
    var back := FormatPart(fmtctx);
    assert ReleasePlan(picture, codec, fmtctx) == front + back;
    assert Ascending(front);
    FormatPartAscending(fmtctx);
    AscendingConcat(front, back, 2);
  }

  /** Teardown releases exactly the handles held; with nothing held it
      releases nothing, which is what makes a second teardown harmless. */
  lemma ReleasePlanExact(picture: Option<Frame>, codec: Option<CodecCtx>, fmtctx: Option<FormatCtx>)
    ensures Picture in ReleasePlan(picture, codec, fmtctx) <==> picture.Some?
    ensures Codec in ReleasePlan(picture, codec, fmtctx) <==> codec.Some?
    ensures FormatContext in ReleasePlan(picture, codec, fmtctx) <==> fmtctx.Some?
    ensures AvioContext in ReleasePlan(picture, codec, fmtctx) <==> fmtctx.Some? && fmtctx.value.pb.Some?
    ensures (AvioBuffer in ReleasePlan(picture, codec, fmtctx)) <==>
              fmtctx.Some? && fmtctx.value.pb.Some? && fmtctx.value.pb.value.buffer
    ensures ReleasePlan(picture, codec, fmtctx) == [] <==> picture.None? && codec.None? && fmtctx.None?
  {
    var front := PicturePart(picture) + CodecPart(codec);
    var back := FormatPart(fmtctx);
    assert ReleasePlan(picture, codec, fmtctx) == front + back;
    assert Picture in front <==> picture.Some?;
    assert Codec in front <==> codec.Some?;
    assert forall h :: h in front ==> h == Picture || h == Codec;
    match fmtctx
    case None =>
      assert back == [];
    case Some(f) =>
      match f.pb
      case None =>
        assert back == [FormatContext];
      case Some(pb) =>
        if pb.buffer {
          assert back == [AvioBuffer, AvioContext, FormatContext];
        } else {
          assert back == [AvioContext, FormatContext];
        }
  }
}

=== FILE: types.dfy ===
/** Values shared by the MPEG-TS stream model: bytes, optional native handles,
    connection types, timestamps and the descriptors of the FFmpeg objects the
    session holds. Native pointers become `Option` values: `None` is NULL. */
module MpegTsTypes {

  newtype byte = b: int | 0 <= b < 256

  datatype Option<+T> = None | Some(value: T)

  /** The connection types the web interface can open. The five transport-stream
      types are the ones this file streams; `Other` stands for every other type
      (JPEG streams, static pages, ...). */
  datatype ConnType = TsFull | TsSub | TsMotion | TsSource | TsSecondary | Other

  /** The per-camera image streams a session can read (`cam->stream.norm`, ...). */
  datatype StreamKind = Norm | Sub | Motion | Source | Secondary

  /** A `struct timespec` from `CLOCK_REALTIME`. */
  datatype Timespec = Timespec(sec: int, nsec: int) {
    predicate Valid() { 0 <= nsec < 1000000000 }
  }

  /** One image stream of a camera: the latest image (NULL before the first
      capture) and the flag the reader raises once it has copied it. */
  datatype StreamData = StreamData(imgData: Option<seq<byte>>, consumed: bool)

  /** The two camera configuration options the stream reads. */
  datatype CamConf = CamConf(streamMotion: bool, streamMaxrate: int)

  /** Where the three YUV420P planes start, relative to plane 0, and their line sizes. */
  datatype PlaneLayout = PlaneLayout(offset1: int, offset2: int, line0: int, line1: int, line2: int)

  /** The reusable `AVFrame` of a session: geometry, plane layout and the
      presentation time of the frame last sent, in microseconds since start. */
  datatype Frame = Frame(width: int, height: int, layout: PlaneLayout, ptsMicros: int)

  /** The encoder context; only the geometry matters to this model. */
  datatype CodecCtx = CodecCtx(width: nat, height: nat)

  /** The custom AVIO context; `buffer` is whether its own I/O buffer is still held. */
  datatype AvioCtx = AvioCtx(buffer: bool)

  /** The muxer (format) context and its optional AVIO context `pb`. */
  datatype FormatCtx = FormatCtx(pb: Option<AvioCtx>)

  /** The native resources teardown releases, one per release call. */
  datatype Handle = Picture | Codec | AvioBuffer | AvioContext | FormatContext
}
